=== FILE: README.md ===
# napalm-fortinet driver core, modelled in Dafny

This project models `FortinetDriver`, the NAPALM driver that runs CLI
commands on Fortinet (FortiOS) devices over an interactive SSH session
provided by netmiko. It covers four pieces:

- **Construction** (`Driver.Construct`): the proxy check, the allow-list
  filtering of `optional_args` into `netmiko_optional_args`, and the forced
  `ssh_config_file` when a jump-host file is generated.
- **Jump-host configuration** (`ProxyConfig`): the path and the text of the
  SSH client configuration written for a proxy. For a hostname, proxy user
  and proxy host without newlines, a reader (`ParseProxyFile`) is proved to
  invert it.
- **Command dispatch** (`Dispatcher.Cli`): the strict `list` type check,
  sequential sends, the abort on the FortiOS failure marker
  `Command fail. Return code 1`, and the result dictionary keyed by command.
- **Fallback sends and error mapping** (`Dispatcher.SendChain`,
  `Dispatcher.MapReply`): a list element tries its alternatives in order.
  Socket errors and end-of-stream become `ConnectionClosedException`.

The device is a scripted oracle. It maps the commands already transmitted
in the session and the command being sent to a reply: output text, a socket
error, an end of stream, or another library failure. Every dispatch
function returns the commands it transmitted, in order. The contracts can
therefore say exactly what was sent before a call returned or raised.

Modules follow the driver's structure. `Python` holds option values,
truthiness and `dict.get`. `Strings` holds substring search and line
splitting. `Transport` holds commands, replies and the session handle.
`Errors` holds the exceptions. Then come `ProxyConfig`, `Driver` and
`Dispatcher`.

The model follows the code as written, including these behaviours:

- The defaults in `netmiko_argument_map` (keepalive 30, delay factor 3, …)
  are never applied. Only keys the caller supplied are forwarded.
- The proxy check only needs a truthy port and user once `proxy_host` is
  truthy. `proxy_password` is never checked. Proxy keys without a truthy
  `proxy_host` are accepted and ignored.
- A list element of `cli` never produces an entry. An element that gets
  through raises `TypeError`, because a list cannot be a dictionary key.
  An empty list element raises `UnboundLocalError`.
- `timeout` is stored but never handed to the transport library.
- `close()` does not clear the session handle.
- `username` and `password` are in the allow-list. If the caller passes
  either in `optional_args`, it collides with the explicit keyword argument
  of the same name in `open()`. Python rejects that call with `TypeError`.

## Model

| member | source | states |
|---|---|---|
| Strings.ContainsIffOccurs | napalm_fortinet/fortinet.py:144 | the left-to-right scan used for the marker test answers true exactly when the marker occurs at some position of the output (Python's `in`) |
| ProxyConfig.GenerateProxyFile | napalm_fortinet/fortinet.py:107-118 | the file is produced exactly when the proxy user and host are strings, with a TypeError otherwise; its path is `/var/tmp/ssh_proxy_` + hostname; its text is the six directives joined by newlines |
| ProxyConfig.ContentIsDirectives | napalm_fortinet/fortinet.py:110-116 | the text as the six writes produce it equals the six directives joined by newlines, with no newline after the last |
| ProxyConfig.ProxyFileReadsBack | napalm_fortinet/fortinet.py:108-118 | for a hop without newlines, splitting the written text into lines gives exactly the six directives, and the text does not end in a newline |
| ProxyConfig.ParseOfContent | napalm_fortinet/fortinet.py:110-116 | round trip: for a hostname, proxy user and proxy host without newlines, reading the generated text back recovers all three |
| ProxyConfig.ContentOfParse | napalm_fortinet/fortinet.py:110-116 | a text the reader accepts as a hop is exactly the text generated for that hop, so the reader accepts nothing else |
| Driver.ResolveProxy | napalm_fortinet/fortinet.py:51-66 | no file and no error without a truthy proxy host; ValueError exactly when the host is truthy and the port or user is not; otherwise a file exactly when the proxy user and host are strings, and TypeError when either is not (the concatenations of `_generate_ssh_proxy_file` at lines 112 and 116); the file lies at the hostname-derived path and holds the six directives for that hostname, user and host |
| Driver.ArgumentTableKeys | napalm_fortinet/fortinet.py:69-94 | the argument map holds `username`, `password` and `ssh_config_file`, never `proxy_password`, and `allow_agent` exactly when the library version supports it |
| Driver.CopyArguments | napalm_fortinet/fortinet.py:98-102 | the loop over the argument map, from any entry on with any dictionary built so far: the result adds exactly the map's keys the caller supplied, each with the caller's value, and keeps every other entry already built |
| Driver.FilterArguments | napalm_fortinet/fortinet.py:96-102 | the forwarded keys are exactly the caller's keys that are in the argument map, each with the caller's value |
| Driver.ForwardedOptions | napalm_fortinet/fortinet.py:96-104 | the forwarded options are the filtered caller options, plus `ssh_config_file` set to the jump-host path when a file was generated; every other value is the caller's |
| Driver.Construct | napalm_fortinet/fortinet.py:38-104 | construction fails exactly when the proxy part fails, with that error; on success there is no session yet, hostname, credentials and timeout are stored as given, the four proxy settings are the `dict.get` values, a file exists iff the proxy host is truthy, the forwarded keys are the allowed caller keys plus `ssh_config_file` when proxied, and each value is the caller's except the forced jump-host path |
| Driver.Open | napalm_fortinet/fortinet.py:121-128 | TypeError for a duplicate keyword exactly when `username` or `password` is among the forwarded options; success exactly when there is no duplicate and the library connects, giving a fresh session with an empty history and leaving every other field unchanged; a refused connection raises the library's own error, unchanged |
| Driver.Close | napalm_fortinet/fortinet.py:130-132 | fails with AttributeError exactly when no session handle is set; otherwise the handle stays in place |
| Driver.ProxyPasswordIgnored | napalm_fortinet/fortinet.py:51-66 | changing `proxy_password` changes neither whether construction succeeds, nor its error, nor the generated file, nor the forwarded options |
| Driver.NoProxyHostNoFile | napalm_fortinet/fortinet.py:58-104 | without a truthy proxy host, construction succeeds with no file and forwards only keys the caller supplied, whatever the other proxy keys hold |
| Driver.AllowAgentOnlyWhenSupported | napalm_fortinet/fortinet.py:88-102 | `allow_agent` is forwarded iff the library supports it and the caller supplied it |
| Driver.ForwardedCredentialsBreakOpen | napalm_fortinet/fortinet.py:69-128 | after construction, `open()` raises TypeError iff the caller's options held `username` or `password` |
| Dispatcher.MapReply | napalm_fortinet/fortinet.py:163-164 | output passes through; a socket error or end of stream becomes ConnectionClosedException carrying the original message; any other failure keeps its own (foreign) exception class and its message |
| Dispatcher.SendCommand | napalm_fortinet/fortinet.py:151-164 | a plain string is sent once and its reply error-mapped; without a session handle nothing is sent and AttributeError is raised (UnboundLocalError for an empty list, whose loop never reaches the handle); a list element sends a prefix of its alternatives; only send errors are raised |
| Dispatcher.SendChain | napalm_fortinet/fortinet.py:155-162 | what is sent is a prefix of the alternatives; an empty list raises UnboundLocalError; sends fail only with session, transport or unbound errors; a returned output means a session exists and something was sent; a returned output still carrying the marker means every alternative was sent |
| Dispatcher.RunCommands | napalm_fortinet/fortinet.py:142-149 | a result is returned only if every element is a plain string and it keeps all earlier keys; a marker error names an element of the list; an unhashable-key error names a list element of it |
| Dispatcher.Cli | napalm_fortinet/fortinet.py:135-149 | a non-list argument raises TypeError before anything is sent; a result is returned only for a list of plain strings; a marker error names one of the requested elements |
| Dispatcher.ChainStopsAt | napalm_fortinet/fortinet.py:154-164 | alternatives are sent in order up to the first reply without the marker or failure, or up to the last one; exactly those are sent, and that reply, error-mapped, is the outcome |
| Dispatcher.RunSinglesCollects | napalm_fortinet/fortinet.py:142-149 | when every reply is accepted, all commands are sent in order and the dictionary maps exactly the earlier keys plus the commands, each command to the output of its last occurrence |
| Dispatcher.RunSinglesStops | napalm_fortinet/fortinet.py:142-146 | when the first rejected reply is at position k, exactly commands 0..k are sent and the call raises the error for that reply, whatever elements (plain or fallback lists) follow |
| Dispatcher.CliCollectsOutputs | napalm_fortinet/fortinet.py:135-149 | `cli` on accepted plain commands sends each once in order and returns a dictionary whose keys are exactly the commands, each mapped to the output of its last occurrence |
| Dispatcher.CliStopsAtFirstFailure | napalm_fortinet/fortinet.py:142-146 | `cli` sends exactly the plain commands up to the first rejected one, and no later element of any kind, and raises its error: ValueError naming it when the output has the marker, the mapped transport error otherwise |
| Dispatcher.CliChainElement | napalm_fortinet/fortinet.py:142-162 | a fallback chain element after any accepted plain commands never yields a result: TypeError (unhashable) if an alternative got through, ValueError naming the chain if all carry the marker, the mapped error on a transport failure; exactly the plain commands and the alternatives up to the deciding one are sent, no later alternative or element |
| Dispatcher.ChainAfterSingles | napalm_fortinet/fortinet.py:142-162 | the same for the loop from any element on, with any dictionary built so far |
| Dispatcher.CliTwice | napalm_fortinet/fortinet.py:135-149 | the session carries over between `cli` calls: after a first call on accepted commands `a` (which sends exactly `a`) and `Resume`, a second call on accepted commands `b` sends exactly `b` and returns exactly the keys of `b`, each mapped to the output of its last occurrence in `b` as the device answers it after `a` and the part of `b` before it |
| Dispatcher.PrefixThenRest | napalm_fortinet/fortinet.py:142-149 | plain commands the device accepts are sent in order and recorded, and the loop then continues with the remaining elements on the session that has seen them |
| Dispatcher.CliEmptyChain | napalm_fortinet/fortinet.py:142-162 | an empty fallback chain after accepted plain commands raises UnboundLocalError having sent only those commands, nothing of its own and no later element |

## Left out

- netmiko itself (`ConnectHandler`, `send_command_timing`, `disconnect`) is a foreign SSH library. Connecting is a parameter of `Driver.Open`. Sending is the `Transport.Oracle` of the session. `disconnect` is not modelled: `Driver.Close` only uses the handle.
- The netmiko version-string parsing is replaced by the boolean `agentKnobSupported`. It stands for "netmiko is at least 1.1". The parse depends on a constant of the external module.
- Writing the proxy file (`open`/`write`/`close`) is I/O. Only the path and the text are modelled. Partial text left behind when a write raises `TypeError` is not modelled, and neither are I/O failures.
- `print` and the module logger only produce output and are not modelled.
- `SocketError` stands for every `OSError`, since `socket.error` is `OSError` in Python 3. Which library failures fall in which class is decided by netmiko and is not modelled.
- A list element of `cli` that is neither a string nor a list would be handed to the library as it is. This model does not represent such elements.
- Hostname, username and password are strings, and option keys are strings. Other Python types for them are not modelled.
- Errors.MessageOf: gives no text for a failed fallback chain. That message embeds Python's `repr` of the list, which is not modelled.
- The result dictionary's insertion order is not modelled. A Dafny `map` is unordered.
- Driver.Construct: takes `timeout` without the default of 60 that the constructor declares; the value is only stored and never used, so the default changes nothing the model states.
- The test fixtures in test/unit/conftest.py and the packaging metadata in setup.py hold no driver logic.
- `Dispatcher.Cli` returns the transmitted commands rather than a new driver. `Dispatcher.Resume` moves them into the session history before the next call.

=== FILE: dispatcher.dfy ===
/** `cli` and `_send_command`: sending each command through the session,
    trying the alternatives of a list element in order, detecting the
    vendor failure marker, mapping transport failures, and collecting the
    outputs keyed by command. */
module Dispatcher {
  import opened Python
  import opened Strings
  import opened Transport
  import opened Errors
  import opened Driver

  /** The text a FortiOS device prints when it rejects a command. */
  const FailureMarker := "Command fail. Return code 1"

  predicate Failed(output: string) {
    Contains(output, FailureMarker)
  }

  /** The argument of `cli`, by its exact Python type: a `list`, or anything
      else (a `str`, a `tuple`, a subclass of `list`, ...) named by its type. */
  datatype CliArg = PyList(elements: seq<Command>) | NotList(typeName: string)

  /** An outcome together with the commands transmitted, in order, on the
      way to it. */
  datatype Sent<+T> = Sent(result: Result<T, Error>, sent: seq<string>)

  /** The `except (socket.error, EOFError)` clause around every send: those
      two become `ConnectionClosedException` with the original message,
      anything else passes through unchanged. */
  function MapReply(r: Reply): (res: Result<string, Error>)
    ensures res.Ok? <==> r.Output?
    ensures res.Ok? ==> res.value == r.text
    ensures res.Err? ==> (ClassOf(res.error) == ConnectionClosedException <==> !r.OtherFailure?)
    ensures res.Err? ==> MessageOf(res.error) == Some(r.message)
    ensures r.OtherFailure? ==> res.Err? && ClassOf(res.error) == Foreign
  {
    match r
    case Output(text) => Ok(text)
    case SocketError(m) => Err(ConnectionClosed(m))
    case EndOfStream(m) => Err(ConnectionClosed(m))
    case OtherFailure(m) => Err(TransportFailure(m))
  }

  /** The errors a send can end in. */
  predicate SendError(e: Error) {
    e.ConnectionClosed? || e.TransportFailure? || e.OutputUnbound? || e.NoSession?
  }

  /** One `self.device.send_command_timing(cmd)`; with no session handle the
      attribute lookup fails before anything is sent. */
  function Transmit(dev: Option<Device>, cmd: string): Sent<string> {
    match dev
    case None => Sent(Err(NoSession), [])
    case Some(d) => Sent(MapReply(d.ReplyTo(cmd)), [cmd])
  }

  /** The loop over a list element's alternatives: send each in order and
      stop after the first reply without the failure marker; when all carry
      it, the last reply is kept. An empty list never binds `output`. */
  function SendChain(dev: Option<Device>, alts: seq<string>): (r: Sent<string>)
    ensures r.sent <= alts
    ensures r.result.Err? ==> SendError(r.result.error)
    ensures |alts| == 0 ==> r.result == Err(OutputUnbound)
    ensures r.result.Ok? ==> dev.Some? && |r.sent| >= 1
    ensures r.result.Ok? && Failed(r.result.value) ==> r.sent == alts
    decreases |alts|
  {
    if |alts| == 0 then Sent(Err(OutputUnbound), [])
    else
      var first := Transmit(dev, alts[0]);
      if first.result.Err? || !Failed(first.result.value) || |alts| == 1 then first
      else
        var rest := SendChain(Advance(dev, first.sent), alts[1..]);
        Sent(rest.result, first.sent + rest.sent)
  }

  /** `_send_command`: a plain string is sent once and its reply mapped; a
      list element goes through the fallback loop. Without a session handle
      nothing is sent and `AttributeError` is raised, unless an empty list
      leaves `output` unbound first. */
  function SendCommand(dev: Option<Device>, c: Command): (r: Sent<string>)
    ensures c.Single? && dev.Some? ==> r == Sent(MapReply(dev.value.ReplyTo(c.text)), [c.text])
    ensures dev.None? ==>
      r == Sent(Err(if c.Chain? && |c.alternatives| == 0 then OutputUnbound else NoSession), [])
    ensures c.Chain? ==> r.sent <= c.alternatives
    ensures r.result.Err? ==> SendError(r.result.error)
  {
    match c
    case Single(t) => Transmit(dev, t)
    case Chain(alts) => SendChain(dev, alts)
  }

  /** The loop of `cli` from some element on, with the dictionary built so
      far. A failed send or a marked output aborts; a list element that got
      through cannot be a dictionary key. */
  function RunCommands(dev: Option<Device>, items: seq<Command>, acc: map<string, string>): (r: Sent<map<string, string>>)
    ensures r.result.Ok? ==> forall i :: 0 <= i < |items| ==> items[i].Single?
    ensures r.result.Ok? ==> acc.Keys <= r.result.value.Keys
    ensures r.result.Err? && r.result.error.CommandFailed? ==> r.result.error.command in items
    ensures r.result.Err? && r.result.error.UnhashableCommand? ==>
      r.result.error.command in items && r.result.error.command.Chain?
    decreases |items|
  {
    if |items| == 0 then Sent(Ok(acc), [])
    else
      var step := SendCommand(dev, items[0]);
      match step.result
      case Err(e) => Sent(Err(e), step.sent)
      case Ok(output) =>
        if Failed(output) then Sent(Err(CommandFailed(items[0])), step.sent)
        else
          match items[0]
          case Chain(_) => Sent(Err(UnhashableCommand(items[0])), step.sent)
          case Single(c) =>
            var rest := RunCommands(Advance(dev, step.sent), items[1..], acc[c := output]);
            Sent(rest.result, step.sent + rest.sent)
  }

  /** `cli(commands)`. */
  function Cli(d: Driver, arg: CliArg): (r: Sent<map<string, string>>)
    ensures arg.NotList? ==> r.result == Err(NotAList) && r.sent == []
    ensures r.result.Ok? ==> arg.PyList? && forall i :: 0 <= i < |arg.elements| ==> arg.elements[i].Single?
    ensures r.result.Err? && r.result.error.CommandFailed? ==>
      arg.PyList? && r.result.error.command in arg.elements
  {
    match arg
    case NotList(_) => Sent(Err(NotAList), [])
    case PyList(items) => RunCommands(d.device, items, map[])
  }

  /** The driver after a `cli` call: its session has seen every command the
      call transmitted, whether the call returned or raised. */
  function Resume(d: Driver, run: Sent<map<string, string>>): (r: Driver)
    ensures r.device.Some? <==> d.device.Some?
    ensures r.device.Some? ==>
      r.device.value.respond == d.device.value.respond && r.device.value.history == d.device.value.history + run.sent
    ensures r.(device := d.device) == d
  {
    d.(device := Advance(d.device, run.sent))
  }

  // ----- Reference semantics over a scripted device -----

  /** Every element a plain command string. */
  function Singles(cmds: seq<string>): (cs: seq<Command>)
    ensures |cs| == |cmds|
    ensures forall i :: 0 <= i < |cmds| ==> cs[i] == Single(cmds[i])
  {
    seq(|cmds|, i requires 0 <= i < |cmds| => Single(cmds[i]))
  }

  /** The device's reply to `cmds[j]` once `cmds[..j]` have been sent before it. */
  function ReplyAt(dev: Device, cmds: seq<string>, j: int): Reply
    requires 0 <= j < |cmds|
  {
    dev.respond(dev.history + cmds[..j], cmds[j])
  }

  /** A reply the command loop moves on from. */
  predicate Accepted(r: Reply) {
    r.Output? && !Failed(r.text)
  }

  /** A reply that makes a fallback chain try its next alternative. */
  predicate Rejected(r: Reply) {
    r.Output? && Failed(r.text)
  }

  /** The error `cli` raises for element `c` when its last reply is `r`. */
  function StepFailure(r: Reply, c: Command): Error
    requires !Accepted(r)
  {
    if r.Output? then CommandFailed(c) else MapReply(r).error
  }

  /** `cmds[j]` does not occur again after position `j`. */
  ghost predicate LastOccurrence(cmds: seq<string>, j: int)
    requires 0 <= j < |cmds|
  {
    forall i :: j < i < |cmds| ==> cmds[i] != cmds[j]
  }

  lemma ReplyAtShift(dev: Device, cmds: seq<string>, j: int)
    requires 0 <= j < |cmds| - 1
    ensures ReplyAt(Device(dev.respond, dev.history + [cmds[0]]), cmds[1..], j) == ReplyAt(dev, cmds, j + 1)
  {
    assert dev.history + [cmds[0]] + cmds[1..][..j] == dev.history + cmds[..j + 1];
  }

  /** Alternatives are sent in order up to the first one whose reply lacks
      the marker (or fails), or up to the last one; that reply decides the
      outcome and nothing after it is sent. */
  lemma ChainStopsAt(dev: Device, alts: seq<string>, k: int)
    requires 0 <= k < |alts|
    requires forall j :: 0 <= j < k ==> Rejected(ReplyAt(dev, alts, j))
    requires k == |alts| - 1 || !Rejected(ReplyAt(dev, alts, k))
    ensures SendChain(Some(dev), alts) == Sent(MapReply(ReplyAt(dev, alts, k)), alts[..k + 1])
  {
    ChainFrom(dev, alts, 0, k);
    assert dev.history + alts[..0] == dev.history;
    assert alts[0..] == alts;
  }

  /** `ChainStopsAt` from the `i`-th alternative on, once `alts[..i]` have
      been sent and rejected. */
  lemma {:induction false} ChainFrom(dev: Device, alts: seq<string>, i: int, k: int)
    requires 0 <= i <= k < |alts|
    requires forall j :: i <= j < k ==> Rejected(ReplyAt(dev, alts, j))
    requires k == |alts| - 1 || !Rejected(ReplyAt(dev, alts, k))
    ensures SendChain(Some(Device(dev.respond, dev.history + alts[..i])), alts[i..])
         == Sent(MapReply(ReplyAt(dev, alts, k)), alts[i..k + 1])
    decreases k - i
  {
    if i == k {
      ChainFromLast(dev, alts, i);
    } else {
      ChainFrom(dev, alts, i + 1, k);
      ChainFromStep(dev, alts, i, k);
    }
  }

  /** The base case of `ChainFrom`: alternative `i` decides the chain. */
  lemma ChainFromLast(dev: Device, alts: seq<string>, i: int)
    requires 0 <= i < |alts|
    requires i == |alts| - 1 || !Rejected(ReplyAt(dev, alts, i))
    ensures SendChain(Some(Device(dev.respond, dev.history + alts[..i])), alts[i..])
         == Sent(MapReply(ReplyAt(dev, alts, i)), alts[i..i + 1])
  {
    var here := Device(dev.respond, dev.history + alts[..i]);
    var tail := alts[i..];
    assert here.ReplyTo(tail[0]) == ReplyAt(dev, alts, i);
    ChainDecided(here, tail);
    assert alts[i..i + 1] == [tail[0]];
  }

  /** The step of `ChainFrom`: a rejected alternative `i` is followed by the
      chain from `i + 1` on. */
  lemma ChainFromStep(dev: Device, alts: seq<string>, i: int, k: int)
    requires 0 <= i < k < |alts|
    requires Rejected(ReplyAt(dev, alts, i))
    requires SendChain(Some(Device(dev.respond, dev.history + alts[..i + 1])), alts[i + 1..])
          == Sent(MapReply(ReplyAt(dev, alts, k)), alts[i + 1..k + 1])
    ensures SendChain(Some(Device(dev.respond, dev.history + alts[..i])), alts[i..])
         == Sent(MapReply(ReplyAt(dev, alts, k)), alts[i..k + 1])
  {
    var here := Device(dev.respond, dev.history + alts[..i]);
    var tail := alts[i..];
    assert here.ReplyTo(tail[0]) == ReplyAt(dev, alts, i);
    ChainMovesOn(here, tail);
    SliceStep(dev.history, alts, i, k);
  }

  lemma SliceStep<T>(h: seq<T>, xs: seq<T>, i: int, k: int)
    requires 0 <= i < k < |xs|
    ensures xs[i..][0] == xs[i] && xs[i..][1..] == xs[i + 1..]
    ensures h + xs[..i] + [xs[i]] == h + xs[..i + 1]
    ensures xs[i..k + 1] == [xs[i]] + xs[i + 1..k + 1]
  {
    assert xs[..i + 1] == xs[..i] + [xs[i]];
  }

  /** The first alternative decides the chain when its reply is not a
      rejection, or when it is the only one. */
  lemma ChainDecided(dev: Device, alts: seq<string>)
    requires |alts| > 0
    requires |alts| == 1 || !Rejected(dev.ReplyTo(alts[0]))
    ensures SendChain(Some(dev), alts) == Sent(MapReply(dev.ReplyTo(alts[0])), [alts[0]])
  {
  }

  /** A rejected alternative with others after it: the chain goes on with
      the rest on the session that has seen it. */
  lemma ChainMovesOn(dev: Device, alts: seq<string>)
    requires |alts| > 1
    requires Rejected(dev.ReplyTo(alts[0]))
    ensures var rest := SendChain(Some(Device(dev.respond, dev.history + [alts[0]])), alts[1..]);
            SendChain(Some(dev), alts) == Sent(rest.result, [alts[0]] + rest.sent)
  {
  }

  /** When every command is accepted, the loop sends them all in order and
      returns the dictionary holding, for each command, the output of its
      last occurrence; keys already present and not re-sent keep their value. */
  lemma {:induction false} RunSinglesCollects(dev: Device, cmds: seq<string>, acc: map<string, string>)
    requires forall j :: 0 <= j < |cmds| ==> Accepted(ReplyAt(dev, cmds, j))
    ensures var r := RunCommands(Some(dev), Singles(cmds), acc);
            && r.sent == cmds
            && r.result.Ok?
            && r.result.value.Keys == acc.Keys + (set c | c in cmds)
            && (forall j :: 0 <= j < |cmds| && LastOccurrence(cmds, j) ==>
                  ReplyAt(dev, cmds, j) == Output(r.result.value[cmds[j]]))
            && (forall k :: k in acc && k !in cmds ==> r.result.value[k] == acc[k])
    decreases |cmds|
  {
    if |cmds| > 0 {
      var next := Device(dev.respond, dev.history + [cmds[0]]);
      var acc' := acc[cmds[0] := ReplyAt(dev, cmds, 0).text];
      assert dev.history + cmds[..0] == dev.history;
      assert Singles(cmds)[1..] == Singles(cmds[1..]);
      AcceptedSingleStep(dev, Singles(cmds), acc);
      ReplyAtShiftAll(dev, cmds);
      RunSinglesCollects(next, cmds[1..], acc');
      var rest := RunCommands(Some(next), Singles(cmds[1..]), acc');
      RunSinglesCollectsStep(dev, cmds, acc, rest.result.value);
    }
  }

  lemma ReplyAtShiftAll(dev: Device, cmds: seq<string>)
    requires |cmds| > 0
    ensures forall j :: 0 <= j < |cmds| - 1 ==>
      ReplyAt(Device(dev.respond, dev.history + [cmds[0]]), cmds[1..], j) == ReplyAt(dev, cmds, j + 1)
  {
    forall j | 0 <= j < |cmds| - 1
      ensures ReplyAt(Device(dev.respond, dev.history + [cmds[0]]), cmds[1..], j) == ReplyAt(dev, cmds, j + 1)
    {
      ReplyAtShift(dev, cmds, j);
    }
  }

  /** The bookkeeping of one step of `RunSinglesCollects`: what the
      dictionary returned for the tail says about the whole list. */
  lemma RunSinglesCollectsStep(dev: Device, cmds: seq<string>, acc: map<string, string>, m: map<string, string>)
    requires |cmds| > 0
    requires ReplyAt(dev, cmds, 0).Output?
    requires var acc' := acc[cmds[0] := ReplyAt(dev, cmds, 0).text];
             && m.Keys == acc'.Keys + (set c | c in cmds[1..])
             && (forall j :: 0 <= j < |cmds| - 1 && LastOccurrence(cmds[1..], j) ==>
                   ReplyAt(dev, cmds, j + 1) == Output(m[cmds[1..][j]]))
             && (forall k :: k in acc' && k !in cmds[1..] ==> m[k] == acc'[k])
    ensures m.Keys == acc.Keys + (set c | c in cmds)
    ensures forall j :: 0 <= j < |cmds| && LastOccurrence(cmds, j) ==>
              ReplyAt(dev, cmds, j) == Output(m[cmds[j]])
    ensures forall k :: k in acc && k !in cmds ==> m[k] == acc[k]
  {
    var c, cs := cmds[0], cmds[1..];
    assert cmds == [c] + cs;
    assert (set x | x in cmds) == {c} + (set x | x in cs);
    forall j | 0 <= j < |cmds| && LastOccurrence(cmds, j)
      ensures ReplyAt(dev, cmds, j) == Output(m[cmds[j]])
    {
      if j == 0 {
        assert c !in cs;
      } else {
        assert cmds[j] == cs[j - 1];
        assert LastOccurrence(cs, j - 1);
      }
    }
  }

  /** When commands before position `k` are accepted and the one at `k` is
      not, the loop has sent exactly the first `k + 1` commands and raises
      the error that reply calls for, whatever elements follow. */
  lemma RunSinglesStops(dev: Device, cmds: seq<string>, rest: seq<Command>, acc: map<string, string>, k: int)
    requires 0 <= k < |cmds|
    requires forall j :: 0 <= j < k ==> Accepted(ReplyAt(dev, cmds, j))
    requires !Accepted(ReplyAt(dev, cmds, k))
    ensures RunCommands(Some(dev), Singles(cmds[..k + 1]) + rest, acc)
         == Sent(Err(StepFailure(ReplyAt(dev, cmds, k), Single(cmds[k]))), cmds[..k + 1])
  {
    var pre := cmds[..k];
    forall j | 0 <= j < k
      ensures ReplyAt(dev, pre, j) == ReplyAt(dev, cmds, j)
    {
      assert pre[..j] == cmds[..j];
    }
    assert Singles(cmds[..k + 1]) == Singles(pre) + [Single(cmds[k])];
    assert Singles(cmds[..k + 1]) + rest == Singles(pre) + ([Single(cmds[k])] + rest);
    PrefixThenRest(dev, pre, [Single(cmds[k])] + rest, acc);
    var after := Device(dev.respond, dev.history + pre);
    assert after.ReplyTo(cmds[k]) == ReplyAt(dev, cmds, k);
    RejectedSingleStep(after, [Single(cmds[k])] + rest, Recorded(dev, pre, acc));
    assert pre + [cmds[k]] == cmds[..k + 1];
  }

  /** `cli` on plain commands that the device all accepts: every command
      is sent once, in order, and the result maps exactly the requested
      commands, each to the output of its last occurrence. */
  lemma CliCollectsOutputs(d: Driver, cmds: seq<string>)
    requires d.device.Some?
    requires forall j :: 0 <= j < |cmds| ==> Accepted(ReplyAt(d.device.value, cmds, j))
    ensures var r := Cli(d, PyList(Singles(cmds)));
            && r.sent == cmds
            && r.result.Ok?
            && r.result.value.Keys == (set c | c in cmds)
            && (forall j :: 0 <= j < |cmds| && LastOccurrence(cmds, j) ==>
                  ReplyAt(d.device.value, cmds, j) == Output(r.result.value[cmds[j]]))
  {
    RunSinglesCollects(d.device.value, cmds, map[]);
  }

  /** The session carries over between `cli` calls: after a first call on
      accepted commands `a`, a second call on accepted commands `b` sees the
      replies the device gives to `b` once `a` has been sent before it. */
  lemma CliTwice(d: Driver, a: seq<string>, b: seq<string>)
    requires d.device.Some?
    requires forall j :: 0 <= j < |a + b| ==> Accepted(ReplyAt(d.device.value, a + b, j))
    ensures var r1 := Cli(d, PyList(Singles(a)));
            var r2 := Cli(Resume(d, r1), PyList(Singles(b)));
            && r1.sent == a
            && r2.sent == b
            && r2.result.Ok?
            && r2.result.value.Keys == (set c | c in b)
            && (forall j :: 0 <= j < |b| && LastOccurrence(b, j) ==>
                  ReplyAt(d.device.value, a + b, |a| + j) == Output(r2.result.value[b[j]]))
  {
    var dev := d.device.value;
    ReplyAtSplit(dev, a, b);
    CliCollectsOutputs(d, a);
    var d2 := Resume(d, Cli(d, PyList(Singles(a))));
    assert d2.device == Some(Device(dev.respond, dev.history + a));
    CliCollectsOutputs(d2, b);
  }

  /** Replies to `a + b` as the replies to `a`, then to `b` on the session
      that has seen `a`. */
  lemma ReplyAtSplit(dev: Device, a: seq<string>, b: seq<string>)
    ensures forall j :: 0 <= j < |a| ==> ReplyAt(dev, a, j) == ReplyAt(dev, a + b, j)
    ensures forall j :: 0 <= j < |b| ==>
      ReplyAt(Device(dev.respond, dev.history + a), b, j) == ReplyAt(dev, a + b, |a| + j)
  {
    forall j | 0 <= j < |a|
      ensures ReplyAt(dev, a, j) == ReplyAt(dev, a + b, j)
    {
      assert (a + b)[..j] == a[..j];
    }
    forall j | 0 <= j < |b|
      ensures ReplyAt(Device(dev.respond, dev.history + a), b, j) == ReplyAt(dev, a + b, |a| + j)
    {
      assert (a + b)[..|a| + j] == a + b[..j];
      assert (a + b)[|a| + j] == b[j];
      assert dev.history + a + b[..j] == dev.history + (a + b)[..|a| + j];
    }
  }

  /** `cli` stops at the first plain command the device does not accept:
      that command and those before it have been sent, no later element,
      and the call raises `ValueError` naming it (marker in the output) or
      the mapped transport error. */
  lemma CliStopsAtFirstFailure(d: Driver, cmds: seq<string>, rest: seq<Command>, k: int)
    requires d.device.Some?
    requires 0 <= k < |cmds|
    requires forall j :: 0 <= j < k ==> Accepted(ReplyAt(d.device.value, cmds, j))
    requires !Accepted(ReplyAt(d.device.value, cmds, k))
    ensures var r := Cli(d, PyList(Singles(cmds[..k + 1]) + rest));
            && r.sent == cmds[..k + 1]
            && r.result == Err(StepFailure(ReplyAt(d.device.value, cmds, k), Single(cmds[k])))
    ensures Rejected(ReplyAt(d.device.value, cmds, k)) ==>
      Cli(d, PyList(Singles(cmds[..k + 1]) + rest)).result == Err(CommandFailed(Single(cmds[k])))
  {
    RunSinglesStops(d.device.value, cmds, rest, map[], k);
  }

  /** A fallback chain as an element of `cli`, after plain commands the
      device all accepts, never yields a result: if an alternative gets
      through, the list cannot be a dictionary key (`TypeError`); if all
      carry the marker, `ValueError` names the chain; a transport failure is
      mapped as for any send. The plain commands and the alternatives up to
      the deciding one are sent, nothing after it, nor any later element.
      The chain's replies are those of the session that has seen `pre`. */
  lemma CliChainElement(d: Driver, pre: seq<string>, alts: seq<string>, rest: seq<Command>, k: int)
    requires d.device.Some?
    requires forall j :: 0 <= j < |pre| ==> Accepted(ReplyAt(d.device.value, pre, j))
    requires 0 <= k < |alts|
    requires var after := Device(d.device.value.respond, d.device.value.history + pre);
             && (forall j :: 0 <= j < k ==> Rejected(ReplyAt(after, alts, j)))
             && (k == |alts| - 1 || !Rejected(ReplyAt(after, alts, k)))
    ensures var r := Cli(d, PyList(Singles(pre) + [Chain(alts)] + rest));
            var last := ReplyAt(Device(d.device.value.respond, d.device.value.history + pre), alts, k);
            && r.sent == pre + alts[..k + 1]
            && r.result == Err(if Accepted(last) then UnhashableCommand(Chain(alts))
                               else StepFailure(last, Chain(alts)))
  {
    ChainAfterSingles(d.device.value, pre, alts, rest, map[], k);
  }

  /** `CliChainElement` for the loop from some element on, with any
      dictionary built so far. */
  lemma ChainAfterSingles(dev: Device, pre: seq<string>, alts: seq<string>, rest: seq<Command>,
                          acc: map<string, string>, k: int)
    requires forall j :: 0 <= j < |pre| ==> Accepted(ReplyAt(dev, pre, j))
    requires 0 <= k < |alts|
    requires var after := Device(dev.respond, dev.history + pre);
             && (forall j :: 0 <= j < k ==> Rejected(ReplyAt(after, alts, j)))
             && (k == |alts| - 1 || !Rejected(ReplyAt(after, alts, k)))
    ensures var last := ReplyAt(Device(dev.respond, dev.history + pre), alts, k);
            (RunCommands(Some(dev), Singles(pre) + [Chain(alts)] + rest, acc)
             == Sent(Err(if Accepted(last) then UnhashableCommand(Chain(alts)) else StepFailure(last, Chain(alts))),
                     pre + alts[..k + 1]))
  {
    assert Singles(pre) + [Chain(alts)] + rest == Singles(pre) + ([Chain(alts)] + rest);
    PrefixThenRest(dev, pre, [Chain(alts)] + rest, acc);
    ChainFirst(Device(dev.respond, dev.history + pre), alts, rest, Recorded(dev, pre, acc), k);
  }

  /** The dictionary after the accepted plain commands `pre`: each one
      mapped to its output, later occurrences overwriting earlier ones. */
  function Recorded(dev: Device, pre: seq<string>, acc: map<string, string>): map<string, string>
    decreases |pre|
  {
    if |pre| == 0 then acc
    else
      var reply := dev.ReplyTo(pre[0]);
      Recorded(Device(dev.respond, dev.history + [pre[0]]), pre[1..],
               if reply.Output? then acc[pre[0] := reply.text] else acc)
  }

  /** Plain commands the device accepts are sent one after the other and
      recorded; the loop then goes on with whatever follows, on the session
      that has seen them. */
  lemma {:induction false} PrefixThenRest(dev: Device, pre: seq<string>, tail: seq<Command>, acc: map<string, string>)
    requires forall j :: 0 <= j < |pre| ==> Accepted(ReplyAt(dev, pre, j))
    ensures var r := RunCommands(Some(Device(dev.respond, dev.history + pre)), tail, Recorded(dev, pre, acc));
            RunCommands(Some(dev), Singles(pre) + tail, acc) == Sent(r.result, pre + r.sent)
    decreases |pre|
  {
    var items := Singles(pre) + tail;
    if |pre| == 0 {
      assert items == tail;
      assert dev.history + pre == dev.history;
    } else {
      var c, cs := pre[0], pre[1..];
      var next := Device(dev.respond, dev.history + [c]);
      assert dev.history + pre[..0] == dev.history;
      assert items[0] == Single(c) && ReplyAt(dev, pre, 0) == dev.ReplyTo(c);
      assert items[1..] == Singles(cs) + tail;
      assert next.history + cs == dev.history + pre;
      AcceptedSingleStep(dev, items, acc);
      ReplyAtShiftAll(dev, pre);
      PrefixThenRest(next, cs, tail, acc[c := dev.ReplyTo(c).text]);
      var r := RunCommands(Some(Device(dev.respond, dev.history + pre)), tail, Recorded(dev, pre, acc));
      HeadThenRest(pre, r.sent);
    }
  }

  lemma HeadThenRest<T>(xs: seq<T>, ys: seq<T>)
    requires |xs| > 0
    ensures [xs[0]] + (xs[1..] + ys) == xs + ys
  {
    assert xs == [xs[0]] + xs[1..];
  }

  /** The base case of `ChainAfterSingles`: the chain heads the list. */
  lemma ChainFirst(dev: Device, alts: seq<string>, rest: seq<Command>, acc: map<string, string>, k: int)
    requires 0 <= k < |alts|
    requires forall j :: 0 <= j < k ==> Rejected(ReplyAt(dev, alts, j))
    requires k == |alts| - 1 || !Rejected(ReplyAt(dev, alts, k))
    ensures var last := ReplyAt(dev, alts, k);
            (RunCommands(Some(dev), [Chain(alts)] + rest, acc)
             == Sent(Err(if Accepted(last) then UnhashableCommand(Chain(alts)) else StepFailure(last, Chain(alts))),
                     alts[..k + 1]))
  {
    ChainStopsAt(dev, alts, k);
  }

  /** One step of the command loop on a plain command the device accepts:
      it is sent, its output recorded, and the loop goes on with the rest. */
  lemma AcceptedSingleStep(dev: Device, items: seq<Command>, acc: map<string, string>)
    requires |items| > 0 && items[0].Single?
    requires Accepted(dev.ReplyTo(items[0].text))
    ensures var c := items[0].text;
            var rest := RunCommands(Some(Device(dev.respond, dev.history + [c])), items[1..],
                                    acc[c := dev.ReplyTo(c).text]);
            RunCommands(Some(dev), items, acc) == Sent(rest.result, [c] + rest.sent)
  {
  }

  /** One step of the command loop on a plain command the device does not
      accept: it is the only command sent, and the loop raises its error. */
  lemma RejectedSingleStep(dev: Device, items: seq<Command>, acc: map<string, string>)
    requires |items| > 0 && items[0].Single?
    requires !Accepted(dev.ReplyTo(items[0].text))
    ensures RunCommands(Some(dev), items, acc)
         == Sent(Err(StepFailure(dev.ReplyTo(items[0].text), items[0])), [items[0].text])
  {
  }

  /** An empty fallback chain, after plain commands the device all accepts,
      raises `UnboundLocalError` having sent only those commands. */
  lemma CliEmptyChain(d: Driver, pre: seq<string>, rest: seq<Command>)
    requires |pre| > 0 ==> d.device.Some? && forall j :: 0 <= j < |pre| ==> Accepted(ReplyAt(d.device.value, pre, j))
    ensures Cli(d, PyList(Singles(pre) + [Chain([])] + rest)) == Sent(Err(OutputUnbound), pre)
  {
    assert Singles(pre) + [Chain([])] + rest == Singles(pre) + ([Chain([])] + rest);
    if |pre| == 0 {
      assert Singles(pre) + ([Chain([])] + rest) == [Chain([])] + rest;
    } else {
      PrefixThenRest(d.device.value, pre, [Chain([])] + rest, map[]);
      assert pre + [] == pre;
    }
  }
}

=== FILE: driver.dfy ===
/** `FortinetDriver` construction and session lifecycle: the proxy check,
    the allow-list filtering of `optional_args`, the forced jump-host
    configuration path, and `open`/`close` reduced to setting and using
    the session handle. */
module Driver {
  import opened Python
  import opened Transport
  import opened Errors
  import opened ProxyConfig
  import opened Strings

  /** The state of a driver instance after construction. */
  datatype Driver = Driver(
    hostname: string,
    username: string,
    password: string,
    timeout: int,
    proxyHost: PyValue,
    proxyUsername: PyValue,
    proxyPassword: PyValue,
    proxyPort: PyValue,
    /** The generated jump-host configuration (`ssh_proxy_file` is its path). */
    proxyFile: Option<ProxyFile>,
    netmikoOptionalArgs: map<string, PyValue>,
    /** The session handle; `None` until `open()`. */
    device: Option<Device>)

  /** `optional_args`, with `None` read as the empty dictionary. */
  function OptionsOf(optionalArgs: Option<map<string, PyValue>>): map<string, PyValue> {
    optionalArgs.GetOr(map[])
  }

  /** Whether the constructor takes the proxy branch. */
  predicate Proxied(args: map<string, PyValue>) {
    Truthy(Get(args, "proxy_host"))
  }

  /** A proxy host given without a truthy port or user. */
  predicate ProxyIncomplete(args: map<string, PyValue>) {
    Proxied(args) && !(Truthy(Get(args, "proxy_port")) && Truthy(Get(args, "proxy_username")))
  }

  /** The proxy part of the constructor: no file without a truthy proxy
      host, `ValueError` when the port or user is missing or falsy, and
      otherwise the generated file, or `TypeError` when the proxy user or
      host is not a string. The proxy password is never looked at. */
  function ResolveProxy(hostname: string, args: map<string, PyValue>): (r: Result<Option<ProxyFile>, Error>)
    ensures !Proxied(args) ==> r == Ok(None)
    ensures r == Err(ProxyOptionsMissing) <==> ProxyIncomplete(args)
    ensures Proxied(args) && !ProxyIncomplete(args) ==>
      (r.Ok? <==> Get(args, "proxy_username").PyStr? && Get(args, "proxy_host").PyStr?)
    ensures r.Err? ==> ClassOf(r.error) == ValueError || ClassOf(r.error) == TypeError
    ensures r.Ok? ==> (r.value.Some? <==> Proxied(args))
    ensures r.Ok? && r.value.Some? ==> r.value.value.path == ProxyFilePrefix + hostname
    ensures r.Ok? && r.value.Some? ==>
      r.value.value.content == JoinLines(Directives(ProxyTarget(hostname, Get(args, "proxy_username").s,
                                                                Get(args, "proxy_host").s)))
  {
    if Proxied(args) then
      if Truthy(Get(args, "proxy_port")) && Truthy(Get(args, "proxy_username")) then
        match GenerateProxyFile(hostname, Get(args, "proxy_username"), Get(args, "proxy_host"))
        case Ok(f) => Ok(Some(f))
        case Err(e) => Err(e)
      else Err(ProxyOptionsMissing)
    else Ok(None)
  }

  /** `netmiko_argument_map`, in its insertion order: the options forwarded
      to the transport, with the defaults written beside them. `allow_agent`
      is added last, only when the installed transport library is new
      enough to accept it. */
  function ArgumentTable(agentKnobSupported: bool): seq<(string, PyValue)> {
    var base := [
      ("ip", PyNone),
      ("username", PyNone),
      ("password", PyNone),
      ("port", PyNone),
      ("secret", PyStr("")),
      ("verbose", PyBool(false)),
      ("keepalive", PyInt(30)),
      ("global_delay_factor", PyInt(3)),
      ("use_keys", PyBool(false)),
      ("key_file", PyNone),
      ("ssh_strict", PyBool(false)),
      ("system_host_keys", PyBool(false)),
      ("alt_host_keys", PyBool(false)),
      ("alt_key_file", PyStr("")),
      ("ssh_config_file", PyNone)
    ];
    if agentKnobSupported then base + [("allow_agent", PyBool(false))] else base
  }

  /** The option names of an argument table. */
  function KeysOf(table: seq<(string, PyValue)>): set<string> {
    set i | 0 <= i < |table| :: table[i].0
  }

  /** Which names `netmiko_argument_map` allows, among those the driver
      otherwise cares about: the credentials and the jump-host path are
      allowed, the proxy settings are not, and `allow_agent` only with a
      new enough library. */
  lemma ArgumentTableKeys(agentKnobSupported: bool)
    ensures var keys := KeysOf(ArgumentTable(agentKnobSupported));
            && "username" in keys && "password" in keys && "ssh_config_file" in keys
            && "proxy_password" !in keys
            && ("allow_agent" in keys <==> agentKnobSupported)
  {
    var table := ArgumentTable(agentKnobSupported);
    assert table[1].0 == "username" && table[2].0 == "password" && table[14].0 == "ssh_config_file";
    assert forall i :: 0 <= i < |table| ==> table[i].0 != "proxy_password";
    if agentKnobSupported {
      assert table[15].0 == "allow_agent";
    } else {
      assert forall i :: 0 <= i < |table| ==> table[i].0 != "allow_agent";
    }
  }

  /** The loop `for k, v in netmiko_argument_map.items()` from entry
      `table[0]` on, with the dictionary `out` built so far: the caller's
      value for `k` is copied when `optional_args[k]` exists, and the
      `KeyError` is swallowed otherwise. The default `v` is never used. */
  function CopyArguments(args: map<string, PyValue>, table: seq<(string, PyValue)>,
                         out: map<string, PyValue>): (r: map<string, PyValue>)
    ensures r.Keys == out.Keys + (args.Keys * KeysOf(table))
    ensures forall k :: k in r ==> r[k] == (if k in args && k in KeysOf(table) then args[k] else out[k])
    decreases |table|
  {
    if |table| == 0 then out
    else
      var k := table[0].0;
      assert KeysOf(table) == {k} + KeysOf(table[1..]) by {
        assert forall i :: 0 < i < |table| ==> table[i] == table[1..][i - 1];
        assert forall i :: 0 <= i < |table| - 1 ==> table[1..][i] == table[i + 1];
      }
      if k in args then CopyArguments(args, table[1..], out[k := args[k]])
      else CopyArguments(args, table[1..], out)
  }

  /** The whole loop, starting from the empty `netmiko_optional_args`: the
      forwarded keys are exactly the allowed keys the caller supplied, each
      with the caller's value. */
  function FilterArguments(args: map<string, PyValue>, table: seq<(string, PyValue)>): (r: map<string, PyValue>)
    ensures r.Keys == args.Keys * KeysOf(table)
    ensures forall k :: k in r ==> r[k] == args[k]
  {
    CopyArguments(args, table, map[])
  }

  /** `FortinetDriver.__init__`. The version test on the transport library
      is the parameter `agentKnobSupported`. */
  function Construct(hostname: string, username: string, password: string, timeout: int,
                     optionalArgs: Option<map<string, PyValue>>, agentKnobSupported: bool): (r: Result<Driver, Error>)
    ensures r.Err? <==> ResolveProxy(hostname, OptionsOf(optionalArgs)).Err?
    ensures r.Err? ==> r.error == ResolveProxy(hostname, OptionsOf(optionalArgs)).error
    ensures r.Ok? ==> r.value.device.None?
    // the explicit arguments are stored as given
    ensures r.Ok? ==> && r.value.hostname == hostname && r.value.username == username
                      && r.value.password == password && r.value.timeout == timeout
    // the proxy settings are read with `dict.get`
    ensures r.Ok? ==> && r.value.proxyHost == Get(OptionsOf(optionalArgs), "proxy_host")
                      && r.value.proxyUsername == Get(OptionsOf(optionalArgs), "proxy_username")
                      && r.value.proxyPassword == Get(OptionsOf(optionalArgs), "proxy_password")
                      && r.value.proxyPort == Get(OptionsOf(optionalArgs), "proxy_port")
    ensures r.Ok? ==> (r.value.proxyFile.Some? <==> Proxied(OptionsOf(optionalArgs)))
    ensures r.Ok? ==> r.value.proxyFile == ResolveProxy(hostname, OptionsOf(optionalArgs)).value
    // only allowed keys the caller supplied, plus the forced jump-host path
    ensures r.Ok? ==> (r.value.netmikoOptionalArgs.Keys ==
                       (OptionsOf(optionalArgs).Keys * KeysOf(ArgumentTable(agentKnobSupported)))
                       + (if Proxied(OptionsOf(optionalArgs)) then {"ssh_config_file"} else {}))
    // every forwarded value is the caller's own, except the forced path
    ensures r.Ok? ==> forall k :: k in r.value.netmikoOptionalArgs ==>
      (if Proxied(OptionsOf(optionalArgs)) && k == "ssh_config_file"
       then r.value.netmikoOptionalArgs[k] == PyStr(ProxyFilePrefix + hostname)
       else r.value.netmikoOptionalArgs[k] == OptionsOf(optionalArgs)[k])
  {
    var args := OptionsOf(optionalArgs);
    match ResolveProxy(hostname, args)
    case Err(e) => Err(e)
    case Ok(proxyFile) =>
      var forcedPath := if proxyFile.Some? then Some(proxyFile.value.path) else None;
      Ok(Driver(hostname, username, password, timeout,
                Get(args, "proxy_host"), Get(args, "proxy_username"),
                Get(args, "proxy_password"), Get(args, "proxy_port"),
                proxyFile, ForwardedOptions(args, ArgumentTable(agentKnobSupported), forcedPath), None))
  }

  /** `netmiko_optional_args`: the filtered caller options, with
      `ssh_config_file` overridden by the jump-host file's path when there
      is one. */
  function ForwardedOptions(args: map<string, PyValue>, table: seq<(string, PyValue)>,
                            forcedPath: Option<string>): (o: map<string, PyValue>)
    ensures o.Keys == args.Keys * KeysOf(table) + (if forcedPath.Some? then {"ssh_config_file"} else {})
    ensures forall k :: k in o ==>
      o[k] == (if forcedPath.Some? && k == "ssh_config_file" then PyStr(forcedPath.value) else args[k])
  {
    var forwarded := FilterArguments(args, table);
    match forcedPath
    case Some(path) => forwarded["ssh_config_file" := PyStr(path)]
    case None => forwarded
  }

  /** The keyword arguments `open()` hands to the transport library. The
      driver's timeout is not among them. */
  datatype ConnectParams = ConnectParams(
    deviceType: string,
    host: string,
    username: string,
    password: string,
    options: map<string, PyValue>)

  /** What the transport library's connect does with those arguments. */
  datatype Connection = Connected(respond: Oracle) | Refused(message: string)

  function ConnectParamsOf(d: Driver): ConnectParams {
    ConnectParams("fortinet", d.hostname, d.username, d.password, d.netmikoOptionalArgs)
  }

  /** `open()`. The explicit `username=` and `password=` keywords clash with
      the same keys forwarded from `optional_args`, which Python rejects
      before the library is reached; otherwise the library either connects,
      giving a fresh session, or fails and its error propagates. */
  function Open(d: Driver, connect: ConnectParams -> Connection): (r: Result<Driver, Error>)
    ensures r.Err? ==> (ClassOf(r.error) == TypeError <==> r.error.DuplicateKeyword?)
    ensures r.Err? && r.error.DuplicateKeyword? <==>
      "username" in d.netmikoOptionalArgs || "password" in d.netmikoOptionalArgs
    ensures r.Ok? <==>
      "username" !in d.netmikoOptionalArgs && "password" !in d.netmikoOptionalArgs
      && connect(ConnectParamsOf(d)).Connected?
    ensures r.Ok? ==> r.value.device == Some(Device(connect(ConnectParamsOf(d)).respond, []))
    ensures r.Ok? ==> r.value.(device := d.device) == d
    // whatever the library raises propagates unchanged
    ensures r.Err? && !r.error.DuplicateKeyword? ==>
      connect(ConnectParamsOf(d)).Refused? && r.error == TransportFailure(connect(ConnectParamsOf(d)).message)
  {
    if "username" in d.netmikoOptionalArgs then Err(DuplicateKeyword("username"))
    else if "password" in d.netmikoOptionalArgs then Err(DuplicateKeyword("password"))
    else
      match connect(ConnectParamsOf(d))
      case Connected(respond) => Ok(d.(device := Some(Device(respond, []))))
      case Refused(m) => Err(TransportFailure(m))
  }

  /** `close()`: uses the session handle, which must be set, and leaves it
      in place afterwards. */
  function Close(d: Driver): (r: Result<Driver, Error>)
    ensures r.Err? <==> d.device.None?
    ensures r.Err? ==> ClassOf(r.error) == AttributeError
    ensures r.Ok? ==> r.value.device == d.device
  {
    match d.device
    case None => Err(NoSession)
    case Some(_) => Ok(d)
  }

  /** The proxy password is never consulted: changing or adding it changes
      neither the outcome of construction nor the generated file nor the
      forwarded options. */
  lemma ProxyPasswordIgnored(hostname: string, username: string, password: string, timeout: int,
                             args: map<string, PyValue>, agentKnobSupported: bool, v: PyValue)
    ensures var r1 := Construct(hostname, username, password, timeout, Some(args), agentKnobSupported);
            var r2 := Construct(hostname, username, password, timeout, Some(args["proxy_password" := v]), agentKnobSupported);
            && r1.Ok? == r2.Ok?
            && (r1.Err? ==> r1.error == r2.error)
            && (r1.Ok? ==> r1.value.proxyFile == r2.value.proxyFile
                           && r1.value.netmikoOptionalArgs == r2.value.netmikoOptionalArgs)
  {
    var args2 := args["proxy_password" := v];
    assert OptionsOf(Some(args)) == args && OptionsOf(Some(args2)) == args2;
    ProxyPartIgnoresPassword(hostname, args, v);
    if Construct(hostname, username, password, timeout, Some(args), agentKnobSupported).Ok? {
      ForwardedIgnorePassword(hostname, username, password, timeout, args, agentKnobSupported, v);
    }
  }

  lemma ForwardedIgnorePassword(hostname: string, username: string, password: string, timeout: int,
                                args: map<string, PyValue>, agentKnobSupported: bool, v: PyValue)
    requires Construct(hostname, username, password, timeout, Some(args), agentKnobSupported).Ok?
    requires Construct(hostname, username, password, timeout, Some(args["proxy_password" := v]), agentKnobSupported).Ok?
    requires ResolveProxy(hostname, args["proxy_password" := v]) == ResolveProxy(hostname, args)
    ensures Construct(hostname, username, password, timeout, Some(args["proxy_password" := v]), agentKnobSupported).value.netmikoOptionalArgs
            == Construct(hostname, username, password, timeout, Some(args), agentKnobSupported).value.netmikoOptionalArgs
  {
    var args2 := args["proxy_password" := v];
    assert OptionsOf(Some(args)) == args && OptionsOf(Some(args2)) == args2;
    var table := ArgumentTable(agentKnobSupported);
    var proxyFile := ResolveProxy(hostname, args).value;
    var forcedPath := if proxyFile.Some? then Some(proxyFile.value.path) else None;
    assert Construct(hostname, username, password, timeout, Some(args), agentKnobSupported).value.netmikoOptionalArgs
        == ForwardedOptions(args, table, forcedPath);
    assert Construct(hostname, username, password, timeout, Some(args2), agentKnobSupported).value.netmikoOptionalArgs
        == ForwardedOptions(args2, table, forcedPath);
    ArgumentTableKeys(agentKnobSupported);
    FilterIgnoresPassword(args, table, v);
  }

  lemma ProxyPartIgnoresPassword(hostname: string, args: map<string, PyValue>, v: PyValue)
    ensures ResolveProxy(hostname, args["proxy_password" := v]) == ResolveProxy(hostname, args)
  {
    var args2 := args["proxy_password" := v];
    assert Get(args2, "proxy_host") == Get(args, "proxy_host");
    assert Get(args2, "proxy_port") == Get(args, "proxy_port");
    assert Get(args2, "proxy_username") == Get(args, "proxy_username");
  }

  lemma FilterIgnoresPassword(args: map<string, PyValue>, table: seq<(string, PyValue)>, v: PyValue)
    requires "proxy_password" !in KeysOf(table)
    ensures FilterArguments(args["proxy_password" := v], table) == FilterArguments(args, table)
  {
  }

  /** Without a truthy proxy host construction always succeeds and writes no
      file, whatever other proxy keys are set. */
  lemma NoProxyHostNoFile(hostname: string, username: string, password: string, timeout: int,
                          args: map<string, PyValue>, agentKnobSupported: bool)
    requires !Truthy(Get(args, "proxy_host"))
    ensures var r := Construct(hostname, username, password, timeout, Some(args), agentKnobSupported);
            r.Ok? && r.value.proxyFile == None && r.value.netmikoOptionalArgs.Keys <= args.Keys
  {
  }

  /** `allow_agent` is forwarded only when the library accepts it. */
  lemma AllowAgentOnlyWhenSupported(args: map<string, PyValue>, agentKnobSupported: bool)
    ensures "allow_agent" in FilterArguments(args, ArgumentTable(agentKnobSupported))
        <==> agentKnobSupported && "allow_agent" in args
  {
    ArgumentTableKeys(agentKnobSupported);
  }

  /** Forwarding `username` or `password` through `optional_args` makes every
      later `open()` fail with `TypeError`, whatever the device does. */
  lemma ForwardedCredentialsBreakOpen(hostname: string, username: string, password: string, timeout: int,
                                      args: map<string, PyValue>, agentKnobSupported: bool,
                                      d: Driver, connect: ConnectParams -> Connection)
    requires Construct(hostname, username, password, timeout, Some(args), agentKnobSupported) == Ok(d)
    ensures Open(d, connect).Err? && ClassOf(Open(d, connect).error) == TypeError
        <==> "username" in args || "password" in args
  {
    CredentialsForwarded(hostname, username, password, timeout, args, agentKnobSupported, d);
  }

  /** The credentials are forwarded exactly when the caller's options hold them. */
  lemma CredentialsForwarded(hostname: string, username: string, password: string, timeout: int,
                             args: map<string, PyValue>, agentKnobSupported: bool, d: Driver)
    requires Construct(hostname, username, password, timeout, Some(args), agentKnobSupported) == Ok(d)
    ensures "username" in d.netmikoOptionalArgs <==> "username" in args
    ensures "password" in d.netmikoOptionalArgs <==> "password" in args
  {
    assert OptionsOf(Some(args)) == args;
    var table := ArgumentTable(agentKnobSupported);
    var proxyFile := ResolveProxy(hostname, args).value;
    var forcedPath := if proxyFile.Some? then Some(proxyFile.value.path) else None;
    assert d.netmikoOptionalArgs == ForwardedOptions(args, table, forcedPath);
    ArgumentTableKeys(agentKnobSupported);
  }
}

=== FILE: errors.dfy ===
/** The exceptions the driver raises or lets through, one constructor per
    raise site (or per foreign failure it passes on). */
module Errors {
  import opened Python
  import opened Transport

  datatype Error =
    /** `ValueError` from the constructor: a proxy host without port or user. */
    | ProxyOptionsMissing
    /** `TypeError` from `str + x` while writing the proxy file, when the proxy
        user or host is truthy but not a string. */
    | ConcatenationTypeError
    /** `TypeError` from `cli` when its argument is not exactly a `list`. */
    | NotAList
    /** `ValueError` from `cli`: the output of `command` carries the failure marker. */
    | CommandFailed(command: Command)
    /** `TypeError` from `cli`: a list element cannot be a dictionary key. */
    | UnhashableCommand(command: Command)
    /** `ConnectionClosedException(str(e))` for a socket error or end of stream. */
    | ConnectionClosed(message: string)
    /** Any other failure of the transport library, propagated unchanged. */
    | TransportFailure(message: string)
    /** `UnboundLocalError`: an empty list of alternatives leaves `output` unbound. */
    | OutputUnbound
    /** `AttributeError`: the session handle is `None` (no `open()` before). */
    | NoSession
    /** `TypeError` from the `ConnectHandler(...)` call: a forwarded option
        repeats one of its explicit keyword arguments. */
    | DuplicateKeyword(name: string)

  /** The Python exception class a caller observes. */
  datatype ExceptionClass =
    | ValueError
    | TypeError
    | UnboundLocalError
    | AttributeError
    | ConnectionClosedException
    | Foreign

  function ClassOf(e: Error): ExceptionClass {
    match e
    case ProxyOptionsMissing => ValueError
    case ConcatenationTypeError => TypeError
    case NotAList => TypeError
    case CommandFailed(_) => ValueError
    case UnhashableCommand(_) => TypeError
    case ConnectionClosed(_) => ConnectionClosedException
    case TransportFailure(_) => Foreign
    case OutputUnbound => UnboundLocalError
    case NoSession => AttributeError
    case DuplicateKeyword(_) => TypeError
  }

  /** The message text of the errors whose text the driver itself fixes.
      For a failed list element the text holds Python's `repr` of the list,
      which this model does not spell out. */
  function MessageOf(e: Error): Option<string> {
    match e
    case ProxyOptionsMissing => Some("All proxy options must be specified ")
    case NotAList => Some("Please enter a valid list of commands!")
    case CommandFailed(Single(c)) => Some("Unable to execute command \"" + c + "\"")
    case ConnectionClosed(m) => Some(m)
    case TransportFailure(m) => Some(m)
    case _ => None
  }
}

=== FILE: proxy_config.dfy ===
/** The jump-host SSH client configuration written when the driver is
    constructed with a proxy: its path and its text, as pure values (the
    file write itself is I/O and is not modelled). */
module ProxyConfig {
  import opened Python
  import opened Strings
  import opened Errors

  /** The hop the configuration describes: the target device, the proxy
      user, and the proxy (bastion) host. */
  datatype ProxyTarget = ProxyTarget(hostname: string, user: string, proxyHost: string)

  /** The artifact `_generate_ssh_proxy_file` produces. */
  datatype ProxyFile = ProxyFile(path: string, content: string)

  const ProxyFilePrefix := "/var/tmp/ssh_proxy_"

  function ProxyFilePath(hostname: string): string {
    ProxyFilePrefix + hostname
  }

  /** The arguments of the six `write` calls, in order. */
  function Writes(t: ProxyTarget): seq<string> {
    [ "Host " + t.hostname + "\n",
      "HostName " + t.hostname + "\n",
      "User " + t.user + "\n",
      "Port 22" + "\n",
      "StrictHostKeyChecking no\n",
      "ProxyCommand ssh " + t.user + "@" + t.proxyHost + " nc %h %p" ]
  }

  /** The text the writes leave in the (truncated) file. */
  function ProxyFileContent(t: ProxyTarget): string {
    Concat(Writes(t))
  }

  const ProxyCommandSuffix := " nc %h %p"

  /** The six directives of the configuration, one per line. */
  function Directives(t: ProxyTarget): seq<string> {
    [ "Host " + t.hostname,
      "HostName " + t.hostname,
      "User " + t.user,
      "Port 22",
      "StrictHostKeyChecking no",
      "ProxyCommand ssh " + t.user + "@" + t.proxyHost + ProxyCommandSuffix ]
  }

  predicate NoNewlines(t: ProxyTarget) {
    '\n' !in t.hostname && '\n' !in t.user && '\n' !in t.proxyHost
  }

  /** `_generate_ssh_proxy_file` on the constructor's values: the proxy user
      and host are concatenated to strings, which raises `TypeError` unless
      both are strings. */
  function GenerateProxyFile(hostname: string, proxyUser: PyValue, proxyHost: PyValue): (r: Result<ProxyFile, Error>)
    ensures r.Ok? <==> proxyUser.PyStr? && proxyHost.PyStr?
    ensures r.Err? ==> ClassOf(r.error) == TypeError
    ensures r.Ok? ==> r.value.path == ProxyFilePrefix + hostname
    ensures r.Ok? ==> r.value.content == JoinLines(Directives(ProxyTarget(hostname, proxyUser.s, proxyHost.s)))
  {
    match (proxyUser, proxyHost)
    case (PyStr(u), PyStr(p)) =>
      var t := ProxyTarget(hostname, u, p);
      ContentIsDirectives(t);
      Ok(ProxyFile(ProxyFilePath(hostname), ProxyFileContent(t)))
    case _ => Err(ConcatenationTypeError)
  }

  /** The written text is the six directives joined by newlines, with no
      newline after the last one. */
  lemma ContentIsDirectives(t: ProxyTarget)
    ensures ProxyFileContent(t) == JoinLines(Directives(t))
  {
    ConcatOfTerminated(Directives(t), Writes(t));
  }

  /** Read back line by line, the file holds exactly the six directives,
      and its last character is not a newline. */
  lemma {:induction false} ProxyFileReadsBack(t: ProxyTarget)
    requires NoNewlines(t)
    ensures Lines(ProxyFileContent(t)) == Directives(t)
    ensures var c := ProxyFileContent(t); c[|c| - 1] != '\n'
  {
    var d := Directives(t);
    forall i | 0 <= i < |d|
      ensures '\n' !in d[i]
    {
      NoNewlineInLine(t, i);
    }
    ContentIsDirectives(t);
    LinesOfJoin(d);
    var w := Writes(t);
    ConcatSplitLast(w);
    assert w[5][|w[5]| - 1] == 'p';
  }

  lemma NoNewlineInLine(t: ProxyTarget, i: int)
    requires NoNewlines(t)
    requires 0 <= i < 6
    ensures '\n' !in Directives(t)[i]
  {
    var d := Directives(t);
    if i == 5 {
      assert d[5] == "ProxyCommand ssh " + t.user + "@" + t.proxyHost + ProxyCommandSuffix;
    }
  }

  /** Reads a jump-host configuration back into the hop it describes, or
      `None` when the text is not one the driver writes. */
  function ParseProxyFile(c: string): Option<ProxyTarget> {
    var ls := Lines(c);
    if |ls| != 6 then None
    else if |ls[0]| < 5 || ls[0][..5] != "Host " then None
    else
      var h := ls[0][5..];
      if ls[1] != "HostName " + h then None
      else if |ls[2]| < 5 || ls[2][..5] != "User " then None
      else
        var u := ls[2][5..];
        if ls[3] != "Port 22" || ls[4] != "StrictHostKeyChecking no" then None
        else
          var pre := "ProxyCommand ssh " + u + "@";
          var l := ls[5];
          if |l| < |pre| + |ProxyCommandSuffix| then None
          else if l[..|pre|] != pre || l[|l| - |ProxyCommandSuffix|..] != ProxyCommandSuffix then None
          else Some(ProxyTarget(h, u, l[|pre|..|l| - |ProxyCommandSuffix|]))
  }

  /** Round trip: reading the generated text back yields the hop it was
      generated from. */
  lemma ParseOfContent(t: ProxyTarget)
    requires NoNewlines(t)
    ensures ParseProxyFile(ProxyFileContent(t)) == Some(t)
  {
    ProxyFileReadsBack(t);
    var d := Directives(t);
    assert d[0][..5] == "Host " && d[0][5..] == t.hostname;
    assert d[2][..5] == "User " && d[2][5..] == t.user;
    var pre := "ProxyCommand ssh " + t.user + "@";
    assert d[5] == pre + t.proxyHost + ProxyCommandSuffix;
    assert d[5][..|pre|] == pre;
    assert d[5][|d[5]| - |ProxyCommandSuffix|..] == ProxyCommandSuffix;
    assert d[5][|pre|..|d[5]| - |ProxyCommandSuffix|] == t.proxyHost;
  }

  /** The reader accepts nothing else: a text it reads as a hop is exactly
      the text generated for that hop, and the hop has no newlines. */
  lemma ContentOfParse(c: string, t: ProxyTarget)
    requires ParseProxyFile(c) == Some(t)
    ensures NoNewlines(t)
    ensures ProxyFileContent(t) == c
  {
    var ls := Lines(c);
    LinesHaveNoNewline(c);
    JoinOfLines(c);
    assert ls[0] == ls[0][..5] + ls[0][5..];
    assert ls[2] == ls[2][..5] + ls[2][5..];
    var pre := "ProxyCommand ssh " + t.user + "@";
    var l := ls[5];
    assert l == l[..|pre|] + l[|pre|..|l| - |ProxyCommandSuffix|] + l[|l| - |ProxyCommandSuffix|..];
    assert ls == Directives(t);
    assert '\n' !in ls[0] && '\n' !in ls[2] && '\n' !in ls[5];
    SliceKeepsNoNewline(ls[0], 5, |ls[0]|);
    SliceKeepsNoNewline(ls[2], 5, |ls[2]|);
    SliceKeepsNoNewline(l, |pre|, |l| - |ProxyCommandSuffix|);
    ContentIsDirectives(t);
  }

  lemma SliceKeepsNoNewline(s: string, i: int, j: int)
    requires 0 <= i <= j <= |s|
    requires '\n' !in s
    ensures '\n' !in s[i..j]
  {
    forall k | 0 <= k < j - i
      ensures s[i..j][k] != '\n'
    {
      assert s[i + k] in s;
    }
  }
}

=== FILE: python.dfy ===
/** The slice of Python the driver relies on: the values a caller may put in
    `optional_args`, Python's truth test, dictionary `get`, and the
    Option/Result wrappers used to say "returns a value or raises". */
module Python {

  /** A value stored in the caller's `optional_args` dictionary. `PyOther`
      stands for every other object (list, dict, float, ...) and keeps only
      whether it is truthy, which is all the driver ever asks of it. */
  datatype PyValue =
    | PyNone
    | PyBool(b: bool)
    | PyInt(i: int)
    | PyStr(s: string)
    | PyOther(truthy: bool)

  /** Python's truth test `if v:`. */
  predicate Truthy(v: PyValue) {
    match v
    case PyNone => false
    case PyBool(b) => b
    case PyInt(i) => i != 0
    case PyStr(s) => s != ""
    case PyOther(t) => t
  }

  /** `d.get(key, None)`. */
  function Get(d: map<string, PyValue>, key: string): PyValue {
    if key in d then d[key] else PyNone
  }

  datatype Option<+T> = None | Some(value: T) {
    function GetOr(default: T): T {
      match this
      case Some(v) => v
      case None => default
    }
  }

  /** A call that either returns `value` or raises `error`. */
  datatype Result<+T, +E> = Ok(value: T) | Err(error: E)
}

=== FILE: strings.dfy ===
/** String operations the driver performs on device output and on the
    jump-host configuration text: Python's substring test `sub in s`, and
    the split of a text into lines together with its inverse. */
module Strings {

  /** `sub` occurs in `s` starting at index `i`. */
  ghost predicate OccursAt(s: string, sub: string, i: int) {
    0 <= i && i + |sub| <= |s| && s[i..i + |sub|] == sub
  }

  /** Python's `sub in s`, computed by a left-to-right scan of `s`. */
  function Contains(s: string, sub: string): bool
    decreases |s|
  {
    if |s| < |sub| then false
    else s[..|sub|] == sub || Contains(s[1..], sub)
  }

  /** The scan answers exactly the declarative question: does `sub` occur
      at some position of `s`? */
  lemma {:induction false} ContainsIffOccurs(s: string, sub: string)
    ensures Contains(s, sub) <==> exists i :: OccursAt(s, sub, i)
    decreases |s|
  {
    if |s| >= |sub| {
      if s[..|sub|] == sub {
        assert OccursAt(s, sub, 0);
      } else {
        ContainsIffOccurs(s[1..], sub);
        forall i | OccursAt(s[1..], sub, i)
          ensures OccursAt(s, sub, i + 1)
        {
          assert s[1..][i..i + |sub|] == s[i + 1..i + 1 + |sub|];
        }
        forall i | OccursAt(s, sub, i)
          ensures OccursAt(s[1..], sub, i - 1)
        {
          assert i != 0;
          assert s[1..][i - 1..i - 1 + |sub|] == s[i..i + |sub|];
        }
      }
    }
  }

  /** Splits `s` at every newline; a text with `n` newlines has `n + 1`
      lines, and a trailing newline yields a final empty line. */
  function Lines(s: string): (ls: seq<string>)
    ensures |ls| >= 1
    decreases |s|
  {
    if |s| == 0 then [""]
    else
      var rest := Lines(s[1..]);
      if s[0] == '\n' then [""] + rest
      else [[s[0]] + rest[0]] + rest[1..]
  }

  /** Joins lines with a newline between consecutive lines and none after
      the last one. */
  function JoinLines(ls: seq<string>): string
    requires |ls| >= 1
    decreases |ls|
  {
    if |ls| == 1 then ls[0] else ls[0] + "\n" + JoinLines(ls[1..])
  }

  /** The text a sequence of writes leaves in a fresh file. */
  function Concat(ws: seq<string>): string
    decreases |ws|
  {
    if |ws| == 0 then "" else ws[0] + Concat(ws[1..])
  }

  /** Writing each line followed by a newline, except the last one, leaves
      the lines joined by newlines. */
  lemma {:induction false} ConcatOfTerminated(ls: seq<string>, ws: seq<string>)
    requires |ls| == |ws| >= 1
    requires forall i :: 0 <= i < |ls| - 1 ==> ws[i] == ls[i] + "\n"
    requires ws[|ws| - 1] == ls[|ls| - 1]
    ensures Concat(ws) == JoinLines(ls)
    decreases |ls|
  {
    if |ls| == 1 {
      assert Concat(ws[1..]) == "";
    } else {
      ConcatOfTerminated(ls[1..], ws[1..]);
    }
  }

  /** The last write ends the text. */
  lemma {:induction false} ConcatSplitLast(ws: seq<string>)
    requires |ws| >= 1
    ensures Concat(ws) == Concat(ws[..|ws| - 1]) + ws[|ws| - 1]
    decreases |ws|
  {
    if |ws| == 1 {
      assert Concat(ws[1..]) == "";
      assert Concat(ws[..0]) == "";
    } else {
      ConcatSplitLast(ws[1..]);
      assert ws[1..][..|ws| - 2] == ws[..|ws| - 1][1..];
      assert ws[..|ws| - 1][0] == ws[0];
    }
  }

  /** No line of a split contains a newline. */
  lemma {:induction false} LinesHaveNoNewline(s: string)
    ensures forall i :: 0 <= i < |Lines(s)| ==> '\n' !in Lines(s)[i]
    decreases |s|
  {
    if |s| > 0 {
      LinesHaveNoNewline(s[1..]);
    }
  }

  /** Joining the lines of a text gives the text back. */
  lemma {:induction false} JoinOfLines(s: string)
    ensures JoinLines(Lines(s)) == s
    decreases |s|
  {
    if |s| > 0 {
      var rest := Lines(s[1..]);
      JoinOfLines(s[1..]);
      if s[0] == '\n' {
        assert Lines(s) == [""] + rest;
        assert ([""] + rest)[1..] == rest;
      } else {
        var ls := Lines(s);
        assert ls == [[s[0]] + rest[0]] + rest[1..];
        if |rest| == 1 {
          assert JoinLines(ls) == [s[0]] + rest[0];
        } else {
          assert ls[1..] == rest[1..];
          assert JoinLines(rest) == rest[0] + "\n" + JoinLines(rest[1..]);
          assert JoinLines(ls) == [s[0]] + rest[0] + "\n" + JoinLines(rest[1..]);
        }
        assert s == [s[0]] + s[1..];
      }
    }
  }

  /** A text without newlines is a single line. */
  lemma {:induction false} LinesOfPlain(a: string)
    requires '\n' !in a
    ensures Lines(a) == [a]
    decreases |a|
  {
    if |a| > 0 {
      LinesOfPlain(a[1..]);
      assert a == [a[0]] + a[1..];
    }
  }

  /** A first line without newlines, a newline, then the rest: the split
      yields that first line followed by the split of the rest. */
  lemma {:induction false} LinesOfCons(a: string, b: string)
    requires '\n' !in a
    ensures Lines(a + "\n" + b) == [a] + Lines(b)
    decreases |a|
  {
    var s := a + "\n" + b;
    if |a| == 0 {
      assert s[1..] == b;
    } else {
      assert s[1..] == a[1..] + "\n" + b;
      LinesOfCons(a[1..], b);
      assert a == [a[0]] + a[1..];
    }
  }

  /** Splitting a join of newline-free lines recovers the lines. */
  lemma {:induction false} LinesOfJoin(ls: seq<string>)
    requires |ls| >= 1
    requires forall i :: 0 <= i < |ls| ==> '\n' !in ls[i]
    ensures Lines(JoinLines(ls)) == ls
    decreases |ls|
  {
    if |ls| == 1 {
      LinesOfPlain(ls[0]);
    } else {
      LinesOfJoin(ls[1..]);
      LinesOfCons(ls[0], JoinLines(ls[1..]));
      assert ls == [ls[0]] + ls[1..];
    }
  }
}

=== FILE: transport.dfy ===
/** The transport collaborator as the driver sees it. The SSH library's
    session is replaced by a scripted device: an oracle that, given every
    command transmitted earlier in the session and the command being sent
    now, says what `send_command_timing` does. */
module Transport {
  import opened Python

  /** One element of the list given to `cli`: a plain command string, or a
      Python list of alternative commands tried in order. */
  datatype Command = Single(text: string) | Chain(alternatives: seq<string>)

  /** The outcome of one `send_command_timing` call: the captured text, a
      socket-level error (any `OSError`), a premature end of stream
      (`EOFError`), or any other exception of the library. */
  datatype Reply =
    | Output(text: string)
    | SocketError(message: string)
    | EndOfStream(message: string)
    | OtherFailure(message: string)

  /** The device's behaviour: its reply to a command, given the commands
      transmitted before it in the same session. */
  type Oracle = (seq<string>, string) -> Reply

  /** An open session: the device and the commands transmitted so far. */
  datatype Device = Device(respond: Oracle, history: seq<string>) {
    /** The reply to `cmd` sent now. */
    function ReplyTo(cmd: string): Reply {
      respond(history, cmd)
    }
  }

  /** The session handle after `sent` has been transmitted on it; an absent
      handle stays absent. */
  function Advance(dev: Option<Device>, sent: seq<string>): Option<Device> {
    match dev
    case None => None
    case Some(d) => Some(Device(d.respond, d.history + sent))
  }
}
